=== FILE: README.md ===
# ClothShare client core, modelled in Dafny

ClothShare is a web front-end for a peer-to-peer clothing marketplace. Almost all of it is
page rendering; this project models the few pieces of decision logic underneath:

- **The HTTP client** (`src/lib/api/client.ts`). A request step attaches the stored access
  token as `Authorization: Bearer <token>` (section 2.1 of RFC 6750). A response step answers
  a 401 with a single token refresh and a single replay of the failed request. When the
  refresh cannot be done, it clears both tokens and sends the browser to `/login`.
- **The session provider** (`src/contexts/AuthContext.tsx`). `checkAuth`, `login`, `signUp`
  and `logout` read and write the `accessToken` and `refreshToken` storage keys and set the
  current user.
- **The item query builder** (`src/lib/api/items.ts`, `getItems`). It turns an optional
  filter record into ordered query parameters after `/items?`.
- **The two upload routes** (`src/app/api/upload/multiple/route.ts`,
  `src/app/api/upload-avatar/route.ts`). Each runs ordered checks on count, MIME type and
  size, then stores the files in the blob store.
- **The image list editor** (`src/components/ImageUpload.tsx`). It keeps a list of image URLs
  bounded by `maxFiles`.

Everything is immutable data and pure functions. Browser storage is a `map<string, string>`.
The browser location and router target are state fields. The world outside is passed in as
parameters:
- `send` is the transport;
- `refresh` is the refresh endpoint;
- `put` is the blob store;
- `stamp` gives the `Date.now()` readings;
- `unwrap` reads the current user out of a successful `/auth/me` response;
- `enc`/`dec` are the form-urlencoded percent-encoder and decoder.

Files: `wrappers.dfy` (Option, Result), `text.dfy` (prefix, substring, split, decimal numbers),
`storage.dfy`, `api_client.dfy`, `auth_session.dfy`, `item_query.dfy`, `blob_upload.dfy`
(shared upload types and path scheme), `upload_multiple.dfy`, `upload_avatar.dfy`,
`image_upload.dfy`.

Two consequences of the client's code are easy to miss:
- A client request whose URL contains `/auth/refresh` (as `/auth/login` or `/auth/signup`)
  is excluded from the refresh logic. On a 401 it is rejected with its own error, and storage
  is untouched.
- Tokens are cleared only when the response step's own refresh call fails, or when no
  refresh token is stored.

## Model

| member | source | states |
|---|---|---|
| `Text.IncludesMeansOccurs` | src/lib/api/client.ts:38 | The left-to-right scan used for `url.includes(path)` holds exactly when the path occurs at some position of the URL, in both directions |
| `Text.NatToString` | src/app/api/upload/multiple/route.ts:42 | A timestamp renders as a non-empty string of decimal digits without a leading zero |
| `Text.ParseNatToString` | src/app/api/upload/multiple/route.ts:42 | Reading the rendered digits back gives the original number, so a rendered timestamp identifies its instant |
| `Storage.ClearTokens` | src/lib/api/client.ts:61-62 | Afterwards neither token key is present, every other key keeps its value, and no key is added |
| `Storage.StoreTokens` | src/contexts/AuthContext.tsx:61-62 | Both keys hold the given tokens; every other key keeps its value; the key set grows by at most the two token keys |
| `ApiClient.AttachToken` | src/lib/api/client.ts:15-24 | In a browser with a non-empty stored access token, the request gains `Authorization: Bearer <token>` and keeps every other header, its URL and its retry mark; otherwise it is unchanged |
| `ApiClient.OnResponse` | src/lib/api/client.ts:31-70 | Successes pass through, and so does any error that is not a 401 on an unretried, non-auth URL in a browser. With no refresh token, or a rejected refresh, both tokens are cleared, the location becomes `/login` and the caller is rejected; in every other case the step sets no location. The refresh endpoint is called exactly when the guard holds and a refresh token is stored, and it gets that token. A replay happens exactly when that call succeeds: it is marked retried, carries `Bearer <new token>`, and the new token is stored. A request already marked never triggers a refresh |
| `ApiClient.Run` | src/lib/api/client.ts:14-71 | One call puts at most two requests on the wire and calls the refresh endpoint at most once, with the stored refresh token. A second request happens exactly when the refresh succeeded; it is marked retried, carries the new token, and its outcome is what the caller gets. Successes need one request and change nothing. Without a replay or a redirect, the caller gets the first outcome unchanged; a replay keeps the request's other headers. Without a replay, storage is either untouched or has both tokens cleared with a redirect to `/login`. The location is `/login` exactly when the first response step gives up on an eligible 401 (no refresh token, or a rejected refresh), and unset otherwise |
| `ApiClient.ExcludedPathNeverRefreshes` | src/lib/api/client.ts:37-41 | A URL containing `/auth/login`, `/auth/signup` or `/auth/refresh` anywhere settles with the original outcome and unchanged storage |
| `ApiClient.OtherPathIsEligible` | src/lib/api/client.ts:37-41 | A 401 on an unretried request whose URL is undefined or contains none of the three auth paths passes the refresh guard |
| `AuthSession.CheckAuth` | src/contexts/AuthContext.tsx:28-48 | Loading always ends false and the route is untouched. With no usable access token, the user, storage and location are untouched. Otherwise, given the exchange of the current-user fetch: if it resolves, the user is the one read from the response and storage is what the call left; if it is rejected, both tokens are removed from what the call left and the user is null. A location the call set replaces the old one |
| `AuthSession.Login` | src/contexts/AuthContext.tsx:56-75 | Success stores both returned tokens under their fixed keys, keeps all other keys, sets the user and navigates to `/browse`, leaving the browser location alone. Failure changes nothing. It rethrows the server's message when that is a non-empty string; when there is no response, no message or an empty one, it rethrows the error's own message |
| `AuthSession.SignUp` | src/contexts/AuthContext.tsx:78-99 | Success behaves as login success. Failure changes nothing and rethrows the server's non-empty message. When there is no response, no message or an empty one, it rethrows the error's message, or "An error occurred" for a value that is not an `Error` |
| `AuthSession.CredentialCallsLeaveStorage` | src/lib/api/auth.ts:43-53 | The login and sign-up calls, going through the client, leave storage and the browser location untouched, make one request, never call the refresh endpoint, and pass their outcome to the caller unchanged |
| `AuthSession.Logout` | src/contexts/AuthContext.tsx:104-118 | Given the exchange of the logout call, both tokens are removed from whatever storage that call left, every other key keeps its value, the user is null (not authenticated), the route is `/`, the browser location is the one that call set (or the old one when it set none), and loading is untouched |
| `AuthSession.LogoutOutcome` | src/contexts/AuthContext.tsx:104-118 | Whatever the logout call through the client meets (success, any error, a 401 whose refresh succeeds or fails), storage ends as before minus the two tokens, the route is `/`, and the browser is sent to `/login` exactly when the client gives up on a 401: no refresh token is stored, or the refresh is rejected. Otherwise the location stays as it was |
| `AuthSession.ExpiredLogoutRedirectsToLogin` | src/contexts/AuthContext.tsx:104-118 | Logging out with an expired access token and a failing refresh leaves the browser location at `/login`, with the router target `/` |
| `AuthSession.LogoutPathNotExcluded` | src/lib/api/auth.ts:62-64 | The `/auth/logout` URL contains none of the excluded paths, so a 401 on it goes through the refresh logic |
| `AuthSession.CurrentUserPathNotExcluded` | src/lib/api/auth.ts:55-59 | The `/auth/me` URL contains none of the excluded paths, so a 401 on it goes through the refresh logic |
| `AuthSession.CheckAuthThroughClient` | src/contexts/AuthContext.tsx:28-48 | With a stored access token and the fetch made through the client, the user is set exactly when the call resolves. A rejected call leaves storage as before minus both tokens; a resolved one leaves it as before or with the refreshed access token. The browser goes to `/login` exactly when the client gives up on a 401 |
| `AuthSession.MountWithExpiredTokenRedirects` | src/contexts/AuthContext.tsx:21-48 | Mounting with an expired access token whose refresh is rejected ends signed out and not loading, with both tokens gone and the browser at `/login` |
| `AuthSession.CheckAuthWithoutTokenFetchesNothing` | src/contexts/AuthContext.tsx:30-34 | With no usable access token, the result does not depend on what the user fetch would return, and the user stays as it was |
| `AuthSession.MountWithoutTokenIsAnonymous` | src/contexts/AuthContext.tsx:21-34 | A provider mounted with no access token ends unauthenticated and not loading |
| `AuthSession.LoginEnablesBearer` | src/contexts/AuthContext.tsx:58-65 | After a successful login with a non-empty access token, the user is authenticated and every browser request carries `Bearer <that token>` |
| `AuthSession.LogoutDropsBearer` | src/contexts/AuthContext.tsx:110-113 | After logout the request step attaches no credential |
| `AuthSession.LogoutDisablesRefresh` | src/contexts/AuthContext.tsx:110-113 | After logout no 401 can lead to a call to the refresh endpoint |
| `ItemQuery.QueryParams` | src/lib/api/items.ts:61-77 | Every parameter is one of the five filter names and carries that filter's own value; the names appear at most once each, in the order category, size, condition, search, status |
| `ItemQuery.SentFor` | src/lib/api/items.ts:63-77 | The value sent under a filter name is the filter's value when it is non-empty and, for category and size only, not `'all'`; otherwise nothing is sent under that name |
| `ItemQuery.QueryParamsSent` | src/lib/api/items.ts:63-77 | Field by field: category and size are sent only when set, non-empty and not `'all'`; condition, search and status whenever non-empty |
| `ItemQuery.Serialize` | src/lib/api/items.ts:79 | The serialised query is empty exactly when there are no parameters |
| `ItemQuery.SerializeRoundTrip` | src/lib/api/items.ts:79 | Parsing the serialised query gives back the parameter list, given a decoder that undoes the encoder and an encoder that escapes `&` and `=` |
| `ItemQuery.ServerSeesFilters` | src/lib/api/items.ts:60-81 | The request path starts with `/items?`, and the query after it parses back to exactly the parameters `getItems` built |
| `ItemQuery.UnfilteredPath` | src/lib/api/items.ts:79 | With no filters, or filters that are all empty (or `'all'` for category and size), the path is exactly `/items?` |
| `ItemQuery.ConditionAllIsSent` | src/lib/api/items.ts:63-71 | A condition of `'all'` is sent as `condition=all`, while a category of `'all'` sends nothing |
| `BlobUpload.BlobPath` | src/app/api/upload/multiple/route.ts:42 | A blob path starts with its prefix and ends with `-` and the file name; what lies between is all digits and reads back as the timestamp |
| `BlobUpload.BlobPathsDiffer` | src/app/api/upload/multiple/route.ts:42 | The same file name stored at two different instants gets two different paths |
| `UploadMultiple.FirstEntryProblem` | src/app/api/upload/multiple/route.ts:24-38 | There is no problem exactly when every entry passes. A reported problem is the problem of some entry whose predecessors all pass |
| `UploadMultiple.Validate` | src/app/api/upload/multiple/route.ts:9-38 | "No files" exactly for an empty batch; "too many" exactly for more than five. Otherwise the per-file loop decides. Acceptance implies one to five entries, all of them files |
| `UploadMultiple.UploadFrom` | src/app/api/upload/multiple/route.ts:41-49 | The uploads succeed exactly when every `put` does. The result then has one URL per file, each the store's answer for that file's path, in order |
| `UploadMultiple.Post` | src/app/api/upload/multiple/route.ts:4-62 | The status is 200, 400 or 500. A refusal carries the first failing check's status and message. After validation, a store failure is a 500 "Upload failed". Success means validation passed and every `put` returned a URL; the reply then lists one URL per file, in input order |
| `UploadMultiple.CountBoundary` | src/app/api/upload/multiple/route.ts:16-21 | Exactly five entries pass the count check; six are refused as too many |
| `UploadMultiple.FirstBadFileDecides` | src/app/api/upload/multiple/route.ts:24-38 | If the earliest failing file fails the type check, the batch is refused as non-image, whatever the later files are |
| `UploadMultiple.SizeBoundary` | src/app/api/upload/multiple/route.ts:32-37 | An image of exactly 5 MiB passes; one byte more is too large |
| `UploadAvatar.Validate` | src/app/api/upload-avatar/route.ts:7-31 | "No file" exactly for an absent or empty field. Acceptance means a file with an allowed type and a size of at most 5 MiB. A disallowed type is reported as such whatever the size. "Too large" is reported exactly for a file with an allowed type over 5 MiB |
| `UploadAvatar.Post` | src/app/api/upload-avatar/route.ts:4-50 | Refusals are 400 with the check's message. The reply is 200 exactly when validation passes and the store returns a URL for the `clothshare/avatars/` path, and that URL is returned. A store failure is a 500 |
| `UploadAvatar.AvatarPostOutcome` | src/app/api/upload-avatar/route.ts:4-50 | The reply is 400 exactly when the field is refused and 500 exactly when an accepted file fails in the store. A 200 carries the store's URL for a path under `clothshare/avatars/` that no batch upload can occupy |
| `UploadAvatar.AvatarPathsApart` | src/app/api/upload-avatar/route.ts:33-37 | No avatar path equals any path the batch route writes under `clothshare/`, whatever the timestamps and file names |
| `UploadAvatar.AvatarAcceptedByBatchCheck` | src/app/api/upload-avatar/route.ts:17-31 | Every file the avatar route accepts also passes the batch route's per-file check |
| `UploadAvatar.SvgOnlyPassesBatchCheck` | src/app/api/upload-avatar/route.ts:17-23 | The converse fails: an `image/svg+xml` file passes the batch check but not the avatar allow-list |
| `ImageUpload.HandleFileChange` | src/components/ImageUpload.tsx:24-65 | An empty selection changes nothing. Exceeding the limit sets "Maximum N images allowed" and sends nothing. Otherwise the request is sent and the spinner ends off. Success appends the returned URLs in order, clears the error and reports the new list. Failure keeps the list and shows the route's or thrown message, else "Upload failed" |
| `ImageUpload.WithoutIsSliceRemoval` | src/components/ImageUpload.tsx:68 | Filtering by index drops exactly the element at that index, keeping the rest in order, and drops nothing for an index out of range |
| `ImageUpload.RemoveImage` | src/components/ImageUpload.tsx:67-71 | The new list is the old one without position `index` (unchanged when out of range); nothing else in the state changes; the new list is reported |
| `ImageUpload.ControlMatchesGate` | src/components/ImageUpload.tsx:29-32 | The upload control is shown exactly when a one-file selection would pass the limit gate |
| `ImageUpload.SelectionKeepsBound` | src/components/ImageUpload.tsx:29-56 | Starting within the limit, with one URL returned per file, the list stays within `maxFiles` |
| `ImageUpload.DefaultEditorTakesFive` | src/components/ImageUpload.tsx:15-33 | With no props the editor starts empty with the upload control shown, accepts a first selection of five files and refuses six |
| `ImageUpload.InitialWithinBound` | src/components/ImageUpload.tsx:15-22 | Existing images within `maxFiles` (5 when absent) give a first state within the bound, and a first selection keeps it |
| `ImageUpload.RemovalKeepsBound` | src/components/ImageUpload.tsx:67-71 | Removal keeps the bound, and removing from a list brings the upload control back |
| `ImageUpload.RouteKeepsBound` | src/components/ImageUpload.tsx:34-61 | Against the batch route itself, the list stays within the limit. An upload either leaves the list as it was or appends exactly one URL per selected file |

## Left out

- Timeout and base configuration of the client (`timeout: 10000`, base URL, `Content-Type`): timing and environment are not modelled. A timeout appears only as a rejected outcome without a response.
- The request step's error handler, which only forwards a rejection.
- Errors whose `config` is missing: the response step assumes every rejected call carries its request config.
- Concurrent 401s that each refresh independently: asynchronous interleaving is not modelled. `Run` covers one call from start to finish.
- The refresh response's `response.data.data` unwrapping. `refresh` returns the new access token or an error. A body without an `accessToken` field, which would store the text "undefined", is not modelled.
- The current user's `response.data.data` unwrapping is the parameter `unwrap`. A body without `data`, which would set the user to `undefined`, is not modelled.
- Thrown values that are not objects. For `null` or `undefined`, reading `error.response` makes `login` throw a `TypeError` of its own. A thrown string or number has no `response`, so `login` rethrows `new Error(undefined)`, whose message is empty. `signUp` checks that the value is an object with a `response` before reading it, so for any value that is not an object it rethrows "An error occurred"; the model covers that case as a non-`Error` `Thrown` without a response. `Thrown` always describes an object, so `login`'s behaviour on non-objects is not modelled.
- The browse page (`src/app/(dash)/browse/page.tsx:359-431`) filters its mock listings on the client (search text, category, size), resets `itemsToShow` to 12 whenever a filter changes, shows the first `itemsToShow` listings and adds 12 more when an `IntersectionObserver` fires. This is page logic outside the modelled core.
- Logging (`console.error`), `router.push` beyond recording the target route, and all rendering.
- `request.formData()` failing on a body that is not form data: the routes' catch turns that into a 500, but the routes here start from the parsed entries.
- Blobs left behind by a failed batch: the route issues every `put` at once and answers 500 when any of them fails, but the others may already have stored their files. The model tracks only the reply, not the store's contents.
- The `success: true` field of both routes' 200 bodies: `Body` holds only the URLs.
- The blob store and the clock: `put` and `stamp` are parameters. `put` receives only the pathname and file, not the access options and token.
- Percent-encoding inside `URLSearchParams`: kept abstract as `enc`/`dec`. The round trip assumes `enc` escapes `&` and `=`.
- `maxFiles` values that are negative or fractional: the prop is a `nat`.
- `ImageUpload.HandleFileChange` reads `images` from the render closure; overlapping selections are not modelled. Nor are clearing the file input, or response bodies whose `urls` or `error` fields have unexpected types.
- The one-line `response.data.data` wrappers in items.ts, reviews.ts, user.ts and auth.ts, other item calls (`getItemById`, `createItem`, ...), and the pages, mock data, favourites button, notifications and loading animation.

=== FILE: api_client.dfy ===
/**
 * The shared HTTP client: a request step that attaches the stored access token
 * as a bearer credential, and a response step that answers a 401 with one
 * token refresh and one replay of the failed request.
 */
module ApiClient {
  import opened Wrappers
  import opened Text
  import opened Storage

  const AuthorizationHeader: string := "Authorization"
  const LoginLocation: string := "/login"
  const NoRefreshTokenMessage: string := "No refresh token"

  /** Requests to these endpoints never trigger a refresh, to avoid refresh loops. */
  const ExcludedPaths: seq<string> := ["/auth/login", "/auth/signup", "/auth/refresh"]

  /** An outgoing request config: its URL (possibly undefined), headers and the `_retry` mark. */
  datatype Request = Request(url: Option<string>, headers: map<string, string>, retried: bool)

  /** The headers every request of the client starts with. */
  const DefaultHeaders: map<string, string> := map["Content-Type" := "application/json"]

  /** A fresh request from the client to `path`: default headers, not yet retried. */
  function NewRequest(path: string): Request {
    Request(Some(path), DefaultHeaders, false)
  }

  datatype Response = Response(status: int, body: string)

  /** A rejected call; `response` is absent for network failures and timeouts. */
  datatype HttpError = HttpError(response: Option<Response>, message: string)

  /** What a call settles to: the response, or the error it was rejected with. */
  datatype Outcome = Resolved(response: Response) | Rejected(error: HttpError)

  /** What the response step does: settle the caller's promise, or replay the request.
      `refreshedWith` is the refresh token sent to the refresh endpoint, if it was called. */
  datatype Step =
    | Settle(outcome: Outcome, store: Store, location: Option<string>, refreshedWith: Option<string>)
    | Replay(request: Request, store: Store, refreshedWith: Option<string>)

  /** The whole exchange as seen from outside: what the caller gets, the storage and
      browser location afterwards, every request put on the wire and every refresh call. */
  datatype Exchange = Exchange(outcome: Outcome, store: Store, location: Option<string>,
                               sent: seq<Request>, refreshCalls: seq<string>)

  /** The bearer credential of section 2.1 of RFC 6750. */
  function Bearer(token: string): string {
    "Bearer " + token
  }

  /** Request step: in a browser with a non-empty stored access token, set
      `Authorization: Bearer <token>`; leave everything else alone. */
  function AttachToken(browser: bool, st: Store, req: Request): (r: Request)
    ensures r.url == req.url && r.retried == req.retried
    ensures r.headers - {AuthorizationHeader} == req.headers - {AuthorizationHeader}
    ensures browser && HasToken(st, AccessTokenKey) ==>
              AuthorizationHeader in r.headers && r.headers[AuthorizationHeader] == Bearer(st[AccessTokenKey])
    ensures !(browser && HasToken(st, AccessTokenKey)) ==> r == req
  {
    if browser && HasToken(st, AccessTokenKey) then
      req.(headers := req.headers[AuthorizationHeader := Bearer(st[AccessTokenKey])])
    else
      req
  }

  /** `excludedPaths.some(path => url?.includes(path))`: an undefined URL is not excluded. */
  predicate IsExcludedPath(url: Option<string>) {
    url.Some? && exists i | 0 <= i < |ExcludedPaths| :: Includes(url.value, ExcludedPaths[i])
  }

  function StatusOf(o: Outcome): Option<int> {
    if o.Rejected? && o.error.response.Some? then Some(o.error.response.value.status) else None
  }

  /** The guard in front of the refresh: a rejected 401 on a request not yet
      retried whose URL is not an authentication endpoint. */
  predicate RefreshEligible(req: Request, o: Outcome) {
    StatusOf(o) == Some(401) && !req.retried && !IsExcludedPath(req.url)
  }

  /** The refresh endpoint is actually called (a stored refresh token is needed). */
  predicate CallsRefresh(browser: bool, st: Store, req: Request, o: Outcome) {
    browser && RefreshEligible(req, o) && HasToken(st, RefreshTokenKey)
  }

  /** The response step gives up and sends the browser to the login page: an eligible 401
      in a browser with no refresh token stored, or with one the refresh endpoint rejects. */
  predicate Redirects(browser: bool, st: Store, req: Request, o: Outcome,
                      refresh: string -> Result<string, HttpError>) {
    browser && RefreshEligible(req, o) && (!HasToken(st, RefreshTokenKey) || refresh(st[RefreshTokenKey]).Failure?)
  }

  /** The failure branch: both tokens removed, location set to the login page, caller rejected. */
  function GiveUp(st: Store, e: HttpError, refreshedWith: Option<string>): Step {
    Settle(Rejected(e), ClearTokens(st), Some(LoginLocation), refreshedWith)
  }

  /**
   * Response step. `req` is the config the failed call was sent with; `refresh`
   * is the refresh endpoint, from refresh token to new access token.
   */
  function OnResponse(browser: bool, st: Store, req: Request, o: Outcome,
                      refresh: string -> Result<string, HttpError>): (s: Step)
    // successes and every error outside the guard pass through with storage untouched
    ensures o.Resolved? ==> s == Settle(o, st, None, None)
    ensures !(browser && RefreshEligible(req, o)) ==> s == Settle(o, st, None, None)
    ensures req.retried ==> s == Settle(o, st, None, None)
    // the refresh endpoint is called exactly when a refresh token is stored, and with that token
    ensures s.refreshedWith.Some? <==> CallsRefresh(browser, st, req, o)
    ensures s.refreshedWith.Some? ==> s.refreshedWith.value == st[RefreshTokenKey]
    // no refresh token: the failure branch without calling the endpoint
    ensures browser && RefreshEligible(req, o) && !HasToken(st, RefreshTokenKey) ==>
              s == Settle(Rejected(HttpError(None, NoRefreshTokenMessage)), ClearTokens(st), Some(LoginLocation), None)
    // refresh rejected: the failure branch with the refresh call's error
    ensures CallsRefresh(browser, st, req, o) && refresh(st[RefreshTokenKey]).Failure? ==>
              s == Settle(Rejected(refresh(st[RefreshTokenKey]).error), ClearTokens(st), Some(LoginLocation),
                          Some(st[RefreshTokenKey]))
    // a replay only follows a successful refresh, is marked, and carries the new token
    ensures s.Replay? <==> s.refreshedWith.Some? && refresh(s.refreshedWith.value).Success?
    // the browser leaves for the login page exactly when the step gives up
    ensures s.Settle? ==> s.location == (if Redirects(browser, st, req, o, refresh) then Some(LoginLocation) else None)
    ensures Redirects(browser, st, req, o, refresh) ==> s.Settle?
    ensures s.Replay? ==>
              var token := refresh(st[RefreshTokenKey]).value;
              && s.store == st[AccessTokenKey := token]
              && s.request.retried
              && s.request.url == req.url
              && s.request.headers == req.headers[AuthorizationHeader := Bearer(token)]
  {
    if o.Resolved? || !(browser && RefreshEligible(req, o)) then
      Settle(o, st, None, None)
    else
      var marked := req.(retried := true);
      if !HasToken(st, RefreshTokenKey) then
        GiveUp(st, HttpError(None, NoRefreshTokenMessage), None)
      else
        var refreshToken := st[RefreshTokenKey];
        match refresh(refreshToken)
        case Failure(e) => GiveUp(st, e, Some(refreshToken))
        case Success(token) =>
          Replay(marked.(headers := marked.headers[AuthorizationHeader := Bearer(token)]),
                 st[AccessTokenKey := token], Some(refreshToken))
  }

  /** The refresh calls a step made, as a trace. */
  function Calls(refreshedWith: Option<string>): seq<string> {
    if refreshedWith.Some? then [refreshedWith.value] else []
  }

  /**
   * One call through the client: request step, transport, response step, and at
   * most one replay, which goes through the request step again.
   * `send` is the transport, from the request on the wire to its outcome.
   */
  function Run(browser: bool, st: Store, req: Request, send: Request -> Outcome,
               refresh: string -> Result<string, HttpError>): (x: Exchange)
    ensures 1 <= |x.sent| <= 2 && |x.refreshCalls| <= 1
    ensures x.sent[0] == AttachToken(browser, st, req)
    // successful responses reach the caller unchanged after one request
    ensures send(x.sent[0]).Resolved? ==> x == Exchange(send(x.sent[0]), st, None, [x.sent[0]], [])
    // the refresh endpoint is called at most once, with the stored refresh token
    ensures |x.refreshCalls| == 1 <==> CallsRefresh(browser, st, x.sent[0], send(x.sent[0]))
    ensures |x.refreshCalls| == 1 ==> x.refreshCalls[0] == st[RefreshTokenKey]
    // a second request happens exactly when the refresh succeeded; it carries the new token
    ensures |x.sent| == 2 <==> |x.refreshCalls| == 1 && refresh(x.refreshCalls[0]).Success?
    ensures |x.sent| == 2 ==>
              var token := refresh(x.refreshCalls[0]).value;
              && x.sent[1].retried
              && x.sent[1].url == req.url
              && x.sent[1].headers - {AuthorizationHeader} == req.headers - {AuthorizationHeader}
              && AuthorizationHeader in x.sent[1].headers
              && x.sent[1].headers[AuthorizationHeader] == Bearer(token)
              && x.store == st[AccessTokenKey := token]
              && x.outcome == send(x.sent[1])
              && x.location == None
    // without a replay, storage changes only by clearing both tokens on the way to the login page
    ensures |x.sent| == 1 ==> (x.store == st && x.location == None) || (x.store == ClearTokens(st) && x.location == Some(LoginLocation) && x.outcome.Rejected?)
    // without a replay or a redirect, the caller gets the first response's outcome unchanged
    ensures |x.sent| == 1 && x.location == None ==> x.outcome == send(x.sent[0])
    // the login page is reached exactly when the first response step gives up
    ensures x.location == (if Redirects(browser, st, x.sent[0], send(x.sent[0]), refresh) then Some(LoginLocation) else None)
  {
    var first := AttachToken(browser, st, req);
    match OnResponse(browser, st, first, send(first), refresh)
    case Settle(o, st1, location, refreshed) => Exchange(o, st1, location, [first], Calls(refreshed))
    case Replay(again, st1, refreshed) =>
      var second := AttachToken(browser, st1, again);
      match OnResponse(browser, st1, second, send(second), refresh)
      case Settle(o, st2, location, refreshedAgain) =>
        Exchange(o, st2, location, [first, second], Calls(refreshed) + Calls(refreshedAgain))
      case Replay(_, _, _) => assert false; Exchange(send(second), st1, None, [first, second], [])
  }

  /** A URL that contains an authentication path anywhere never triggers a refresh:
      the error reaches the caller and storage is untouched. */
  lemma ExcludedPathNeverRefreshes(browser: bool, st: Store, req: Request, o: Outcome,
                                   refresh: string -> Result<string, HttpError>, i: nat)
    requires req.url.Some? && i < |ExcludedPaths| && ContainsAt(req.url.value, ExcludedPaths[i])
    ensures OnResponse(browser, st, req, o, refresh) == Settle(o, st, None, None)
  {
    IncludesMeansOccurs(req.url.value, ExcludedPaths[i]);
  }

  /** A 401 on a fresh request to any other URL is eligible for a refresh. */
  lemma OtherPathIsEligible(req: Request, o: Outcome)
    requires StatusOf(o) == Some(401) && !req.retried
    requires req.url.None? || forall i | 0 <= i < |ExcludedPaths| :: !ContainsAt(req.url.value, ExcludedPaths[i])
    ensures RefreshEligible(req, o)
  {
    if req.url.Some? {
      forall i | 0 <= i < |ExcludedPaths|
        ensures !Includes(req.url.value, ExcludedPaths[i])
      {
        IncludesMeansOccurs(req.url.value, ExcludedPaths[i]);
      }
    }
  }
}

=== FILE: auth_session.dfy ===
/**
 * The session provider: the current user, the loading flag and the two tokens in
 * storage, changed only by `checkAuth`, `login`, `signUp` and `logout`.
 */
module AuthSession {
  import opened Wrappers
  import opened Storage
  import ApiClient

  const BrowseRoute: string := "/browse"
  const LandingRoute: string := "/"
  const GenericSignUpMessage: string := "An error occurred"
  const LogoutPath: string := "/auth/logout"
  const CurrentUserPath: string := "/auth/me"
  const LoginPath: string := "/auth/login"
  const SignUpPath: string := "/auth/signup"

  datatype User = User(id: string, email: string, displayName: Option<string>)

  /** The unwrapped body of a successful login or sign-up. */
  datatype AuthResponse = AuthResponse(user: User, accessToken: string, refreshToken: string)

  /** The body of a failed call's response; `message` is `response.data.message`. */
  datatype ErrorBody = ErrorBody(message: Option<string>)

  /** A value thrown by an API call: whether it is an `Error`, its `message`
      (empty when it has none), and the server response it carries, if any. */
  datatype Thrown = Thrown(isError: bool, message: string, response: Option<ErrorBody>)

  /** Provider state; `route` is the last navigation requested through the router and
      `location` the last `window.location.href` set by the client. */
  datatype Session = Session(store: Store, user: Option<User>, isLoading: bool,
                             route: Option<string>, location: Option<string>)

  /** What an action leaves behind: the new state and the message it rethrows, if any. */
  datatype Settled = Settled(session: Session, thrown: Option<string>)

  /** State on mount: no user yet, loading. */
  function Mount(st: Store): Session {
    Session(st, None, true, None, None)
  }

  /** `isAuthenticated = !!user` */
  predicate IsAuthenticated(s: Session) {
    s.user.Some?
  }

  /** The thrown value carries a non-empty `response.data.message`. */
  predicate HasServerMessage(e: Thrown) {
    e.response.Some? && e.response.value.message.Some? && e.response.value.message.value != ""
  }

  /** The server message when it is a non-empty string, else the fallback (`a || b`). */
  function ServerMessageOr(response: Option<ErrorBody>, fallback: string): string {
    if response.Some? && response.value.message.Some? && response.value.message.value != "" then
      response.value.message.value
    else
      fallback
  }

  /**
   * `checkAuth`. With no usable access token it only stops loading. Otherwise it fetches
   * the current user through the client; `call` is that exchange, which may refresh the
   * access token, or clear both tokens and send the browser to `/login`, and `unwrap` reads
   * the user out of a successful response. A resolved call records the user; a rejected
   * one drops both tokens from whatever storage the call left.
   */
  function CheckAuth(s: Session, call: ApiClient.Exchange, unwrap: ApiClient.Response -> User): (r: Session)
    ensures !r.isLoading
    ensures r.route == s.route
    ensures !HasToken(s.store, AccessTokenKey) ==> r.store == s.store && r.user == s.user && r.location == s.location
    ensures HasToken(s.store, AccessTokenKey) && call.outcome.Resolved? ==>
              r.store == call.store && r.user == Some(unwrap(call.outcome.response))
    ensures HasToken(s.store, AccessTokenKey) && call.outcome.Rejected? ==>
              r.store == ClearTokens(call.store) && r.user == None
    // a location the call set replaces the old one; otherwise the old one stays
    ensures HasToken(s.store, AccessTokenKey) && call.location.Some? ==> r.location == call.location
    ensures call.location.None? ==> r.location == s.location
  {
    if !HasToken(s.store, AccessTokenKey) then
      s.(isLoading := false)
    else
      var location := call.location.OrElse(s.location);
      match call.outcome
      case Resolved(response) =>
        s.(store := call.store, user := Some(unwrap(response)), isLoading := false, location := location)
      case Rejected(_) =>
        s.(store := ClearTokens(call.store), user := None, isLoading := false, location := location)
  }

  /** The part a successful login and sign-up share: store both tokens, set the user, go to browse. */
  function SignedIn(s: Session, resp: AuthResponse): Session {
    s.(store := StoreTokens(s.store, resp.accessToken, resp.refreshToken),
       user := Some(resp.user), route := Some(BrowseRoute))
  }

  /** `login`: success signs in; failure leaves the state alone and rethrows the server message or the error's own. */
  function Login(s: Session, reply: Result<AuthResponse, Thrown>): (r: Settled)
    ensures reply.Success? ==>
              && r.thrown == None
              && AccessTokenKey in r.session.store && RefreshTokenKey in r.session.store
              && r.session.store[AccessTokenKey] == reply.value.accessToken
              && r.session.store[RefreshTokenKey] == reply.value.refreshToken
              && r.session.store - {AccessTokenKey, RefreshTokenKey} == s.store - {AccessTokenKey, RefreshTokenKey}
              && r.session.user == Some(reply.value.user)
              && r.session.route == Some(BrowseRoute)
              && r.session.isLoading == s.isLoading
              && r.session.location == s.location
    ensures reply.Failure? ==> r.session == s && r.thrown.Some?
    ensures reply.Failure? && HasServerMessage(reply.error) ==> r.thrown == reply.error.response.value.message
    ensures reply.Failure? && !HasServerMessage(reply.error) ==> r.thrown == Some(reply.error.message)
  {
    match reply
    case Success(resp) => Settled(SignedIn(s, resp), None)
    case Failure(e) => Settled(s, Some(ServerMessageOr(e.response, e.message)))
  }

  /** `signUp`: as `login` on success; on failure a non-`Error` value without a server
      message becomes the generic message. */
  function SignUp(s: Session, reply: Result<AuthResponse, Thrown>): (r: Settled)
    ensures reply.Success? ==> r == Login(s, reply)
    ensures reply.Failure? ==> r.session == s && r.thrown.Some?
    ensures reply.Failure? && HasServerMessage(reply.error) ==> r.thrown == reply.error.response.value.message
    ensures reply.Failure? && !HasServerMessage(reply.error) ==>
              r.thrown == Some(if reply.error.isError then reply.error.message else GenericSignUpMessage)
  {
    match reply
    case Success(resp) => Settled(SignedIn(s, resp), None)
    case Failure(e) =>
      var fallback := if e.isError then e.message else GenericSignUpMessage;
      Settled(s, Some(ServerMessageOr(e.response, fallback)))
  }

  /** The login and sign-up calls are excluded from the refresh logic, so going through
      the client they never touch storage or the browser location, never call the refresh
      endpoint, and hand their first outcome to the caller unchanged. */
  lemma CredentialCallsLeaveStorage(browser: bool, st: Store, path: string,
                                    send: ApiClient.Request -> ApiClient.Outcome,
                                    refresh: string -> Result<string, ApiClient.HttpError>)
    requires path == LoginPath || path == SignUpPath
    ensures var x := ApiClient.Run(browser, st, ApiClient.NewRequest(path), send, refresh);
            && x.store == st && x.location == None
            && |x.sent| == 1 && x.refreshCalls == []
            && x.outcome == send(x.sent[0])
  {
    var i := if path == LoginPath then 0 else 1;
    assert ApiClient.ExcludedPaths[i] == path;
    assert Text.OccursAt(path, ApiClient.ExcludedPaths[i], 0);
    var first := ApiClient.AttachToken(browser, st, ApiClient.NewRequest(path));
    ApiClient.ExcludedPathNeverRefreshes(browser, st, first, send(first), refresh, i);
  }

  /** The request `authApi.logout()` sends through the client. */
  const LogoutRequest: ApiClient.Request := ApiClient.NewRequest(LogoutPath)

  /**
   * `logout`. The server call goes through the client; `call` is that exchange, which
   * may refresh the access token, or clear both tokens and send the browser to `/login`.
   * Afterwards, whatever the call did, both tokens and the user are gone.
   */
  function Logout(s: Session, call: ApiClient.Exchange): (r: Session)
    ensures AccessTokenKey !in r.store && RefreshTokenKey !in r.store
    ensures forall k :: k in r.store <==> k in call.store && k != AccessTokenKey && k != RefreshTokenKey
    ensures r.store == ClearTokens(call.store)
    ensures r.user == None && !IsAuthenticated(r)
    ensures r.route == Some(LandingRoute)
    ensures call.location.Some? ==> r.location == call.location
    ensures call.location.None? ==> r.location == s.location
    ensures r.isLoading == s.isLoading
  {
    s.(store := ClearTokens(call.store), user := None, route := Some(LandingRoute),
       location := call.location.OrElse(s.location))
  }

  /** Whatever the logout call meets (success, any error, a 401 whose refresh succeeds or
      fails), storage ends as before minus the two tokens. The browser is sent to `/login`
      exactly when the client gives up on a 401: no refresh token is stored, or the refresh
      is rejected; otherwise the location stays as it was. */
  lemma LogoutOutcome(s: Session, browser: bool, send: ApiClient.Request -> ApiClient.Outcome,
                      refresh: string -> Result<string, ApiClient.HttpError>)
    ensures var first := ApiClient.AttachToken(browser, s.store, LogoutRequest);
            var r := Logout(s, ApiClient.Run(browser, s.store, LogoutRequest, send, refresh));
            && r.store == ClearTokens(s.store)
            && !IsAuthenticated(r)
            && r.route == Some(LandingRoute)
            && r.location == (if ApiClient.Redirects(browser, s.store, first, send(first), refresh)
                              then Some(ApiClient.LoginLocation) else s.location)
  {
  }

  /** Logout with an expired access token and a refresh that fails: the client's redirect to
      `/login` happens before the provider's own navigation to `/`. */
  lemma ExpiredLogoutRedirectsToLogin(s: Session, body: string, message: string,
                                      send: ApiClient.Request -> ApiClient.Outcome,
                                      refresh: string -> Result<string, ApiClient.HttpError>)
    requires HasToken(s.store, RefreshTokenKey)
    requires send(ApiClient.AttachToken(true, s.store, LogoutRequest))
               == ApiClient.Rejected(ApiClient.HttpError(Some(ApiClient.Response(401, body)), message))
    requires refresh(s.store[RefreshTokenKey]).Failure?
    ensures var r := Logout(s, ApiClient.Run(true, s.store, LogoutRequest, send, refresh));
            r.location == Some(ApiClient.LoginLocation) && r.route == Some(LandingRoute)
  {
    LogoutPathNotExcluded();
  }

  /** The logout URL is not one of the client's excluded authentication paths. */
  lemma LogoutPathNotExcluded()
    ensures !ApiClient.IsExcludedPath(Some(LogoutPath))
  {
    var path := LogoutPath;
    assert path[..11] != "/auth/login" by { assert path[10] == 'u'; }
    assert path[1..][..11] != "/auth/login" by { assert path[1] == 'a'; }
    assert !Text.Includes(path[1..][1..], "/auth/login");
    assert path[..12] != "/auth/signup" by { assert path[6] == 'l'; }
    assert !Text.Includes(path[1..], "/auth/signup");
    assert !Text.Includes(path[1..], "/auth/refresh");
  }

  /** The request `authApi.getCurrentUser()` sends through the client. */
  const CurrentUserRequest: ApiClient.Request := ApiClient.NewRequest(CurrentUserPath)

  /** The current-user URL is not excluded either: a 401 on it goes through the refresh logic. */
  lemma CurrentUserPathNotExcluded()
    ensures !ApiClient.IsExcludedPath(Some(CurrentUserPath))
  {
  }

  /**
   * `checkAuth` with a stored access token, fetching through the client. The user is set
   * exactly when the call resolves. A rejected call leaves storage as before minus both
   * tokens; a resolved one leaves it as before, or with the refreshed access token. The
   * browser is sent to `/login` exactly when the client gives up on a 401.
   */
  lemma CheckAuthThroughClient(s: Session, send: ApiClient.Request -> ApiClient.Outcome,
                               refresh: string -> Result<string, ApiClient.HttpError>,
                               unwrap: ApiClient.Response -> User)
    requires HasToken(s.store, AccessTokenKey)
    ensures var first := ApiClient.AttachToken(true, s.store, CurrentUserRequest);
            var call := ApiClient.Run(true, s.store, CurrentUserRequest, send, refresh);
            var r := CheckAuth(s, call, unwrap);
            && (IsAuthenticated(r) <==> call.outcome.Resolved?)
            && (!IsAuthenticated(r) ==> r.store == ClearTokens(s.store))
            && (IsAuthenticated(r) ==>
                  || r.store == s.store
                  || (HasToken(s.store, RefreshTokenKey) && refresh(s.store[RefreshTokenKey]).Success?
                      && r.store == s.store[AccessTokenKey := refresh(s.store[RefreshTokenKey]).value]))
            && r.location == (if ApiClient.Redirects(true, s.store, first, send(first), refresh)
                              then Some(ApiClient.LoginLocation) else s.location)
  {
  }

  /** A provider mounted with an expired access token whose refresh is rejected ends
      signed out, with both tokens gone and the browser at `/login`. */
  lemma MountWithExpiredTokenRedirects(st: Store, body: string, message: string,
                                       send: ApiClient.Request -> ApiClient.Outcome,
                                       refresh: string -> Result<string, ApiClient.HttpError>,
                                       unwrap: ApiClient.Response -> User)
    requires HasToken(st, AccessTokenKey) && HasToken(st, RefreshTokenKey)
    requires send(ApiClient.AttachToken(true, st, CurrentUserRequest))
               == ApiClient.Rejected(ApiClient.HttpError(Some(ApiClient.Response(401, body)), message))
    requires refresh(st[RefreshTokenKey]).Failure?
    ensures var r := CheckAuth(Mount(st), ApiClient.Run(true, st, CurrentUserRequest, send, refresh), unwrap);
            && !IsAuthenticated(r) && !r.isLoading
            && r.store == ClearTokens(st)
            && r.location == Some(ApiClient.LoginLocation)
  {
  }

  /** Without a stored access token `checkAuth` never looks at the fetch: its result
      is the same whatever the server would have answered. */
  lemma CheckAuthWithoutTokenFetchesNothing(s: Session, c1: ApiClient.Exchange, c2: ApiClient.Exchange,
                                            unwrap: ApiClient.Response -> User)
    requires !HasToken(s.store, AccessTokenKey)
    ensures CheckAuth(s, c1, unwrap) == CheckAuth(s, c2, unwrap)
    ensures CheckAuth(s, c1, unwrap).user == s.user
  {
  }

  /** On mount with no token the provider ends not loading and not authenticated. */
  lemma MountWithoutTokenIsAnonymous(st: Store, call: ApiClient.Exchange, unwrap: ApiClient.Response -> User)
    requires !HasToken(st, AccessTokenKey)
    ensures !IsAuthenticated(CheckAuth(Mount(st), call, unwrap))
    ensures !CheckAuth(Mount(st), call, unwrap).isLoading
  {
  }

  /** After a successful login with a non-empty access token, every browser request
      the client sends carries that token as its bearer credential. */
  lemma LoginEnablesBearer(s: Session, resp: AuthResponse, req: ApiClient.Request)
    requires resp.accessToken != ""
    ensures var st := Login(s, Success(resp)).session.store;
            var sent := ApiClient.AttachToken(true, st, req);
            && IsAuthenticated(Login(s, Success(resp)).session)
            && ApiClient.AuthorizationHeader in sent.headers
            && sent.headers[ApiClient.AuthorizationHeader] == ApiClient.Bearer(resp.accessToken)
  {
  }

  /** After logout the client attaches no credential at all. */
  lemma LogoutDropsBearer(s: Session, call: ApiClient.Exchange, req: ApiClient.Request)
    ensures ApiClient.AttachToken(true, Logout(s, call).store, req) == req
  {
  }

  /** After logout a 401 cannot be recovered: with no refresh token the client takes
      the failure branch without calling the refresh endpoint. */
  lemma LogoutDisablesRefresh(s: Session, call: ApiClient.Exchange, req: ApiClient.Request, o: ApiClient.Outcome)
    ensures !ApiClient.CallsRefresh(true, Logout(s, call).store, req, o)
  {
  }
}

=== FILE: blob_upload.dfy ===
/** What the two upload routes share: the form entries they read, their JSON replies,
    the size limit and the blob store's path scheme. */
module BlobUpload {
  import opened Wrappers
  import opened Text

  /** 5 MiB: the largest accepted file, in bytes. */
  const MaxFileBytes: nat := 5 * 1024 * 1024

  const StatusOk: int := 200
  const StatusBadRequest: int := 400
  const StatusServerError: int := 500
  const UploadFailedMessage: string := "Upload failed"

  /** A browser `File`: its name, its MIME type and its size in bytes. */
  datatype FileInfo = FileInfo(name: string, mimeType: string, size: nat)

  /** A multipart form value: a file, or a plain text field sent under the same name. */
  datatype FormEntry = FileEntry(file: FileInfo) | TextEntry(text: string)

  /** JSON body of a reply: the uploaded URLs, one URL, or an error message. The
      `success: true` field of the successful bodies is not modelled. */
  datatype Body = UrlsBody(urls: seq<string>) | UrlBody(url: string) | ErrorBody(error: string)

  datatype Reply = Reply(status: int, body: Body)

  /** The blob store's `put`: pathname and file to the public URL, or `None` when it throws. */
  type Put = (string, FileInfo) -> Option<string>

  function ErrorReply(status: int, message: string): Reply {
    Reply(status, ErrorBody(message))
  }

  /** `${prefix}${Date.now()}-${name}` */
  function BlobPath(prefix: string, stamp: nat, name: string): (p: string)
    ensures |p| > |prefix| + |name|
    ensures StartsWith(p, prefix)
    ensures p[|p| - |name|..] == name && p[|p| - |name| - 1] == '-'
    ensures var digits := p[|prefix|..|p| - |name| - 1];
            && (forall i :: 0 <= i < |digits| ==> IsDigit(digits[i]))
            && ParseNat(digits) == stamp
  {
    var p := prefix + NatToString(stamp) + "-" + name;
    assert p[|prefix|..|p| - |name| - 1] == NatToString(stamp);
    assert p[..|prefix|] == prefix;
    ParseNatToString(stamp);
    p
  }

  /** Two uploads of the same file name at different instants get different paths. */
  lemma BlobPathsDiffer(prefix: string, s1: nat, s2: nat, name: string)
    requires s1 != s2
    ensures BlobPath(prefix, s1, name) != BlobPath(prefix, s2, name)
  {
  }
}

=== FILE: image_upload.dfy ===
/**
 * The image list editor: a list of uploaded URLs bounded by `maxFiles`, extended by
 * a file selection (after a count gate and an upload request) and shrunk by removal.
 */
module ImageUpload {
  import opened Wrappers
  import opened Text
  import opened BlobUpload
  import UploadMultiple

  const DefaultMaxFiles: nat := 5

  /** Component state; `maxFiles` is the prop, fixed for the component's life. */
  datatype State = State(images: seq<string>, isUploading: bool, error: Option<string>, maxFiles: nat)

  /** How the upload request ended: a parsed JSON reply (`response.ok`, `data.error`,
      `data.urls`), or a thrown value (`Error` or not, and its message). */
  datatype UploadReply = Answered(ok: bool, error: Option<string>, urls: seq<string>)
                       | Threw(isError: bool, message: string)

  /** The state after an event, the list passed to `onUploadComplete` (if it was called)
      and whether the upload request was sent. */
  datatype Change = Change(state: State, notified: Option<seq<string>>, requested: bool)

  /** The first render; an absent prop takes its default (`maxFiles = 5`, `existingImages = []`). */
  function Initial(existing: Option<seq<string>>, maxFiles: Option<nat>): (s: State)
    ensures !s.isUploading && s.error == None
  {
    State(existing.GetOr([]), false, None, maxFiles.GetOr(DefaultMaxFiles))
  }

  function LimitMessage(maxFiles: nat): string {
    "Maximum " + NatToString(maxFiles) + " images allowed"
  }

  predicate Succeeded(reply: UploadReply) {
    reply.Answered? && reply.ok
  }

  /** The message shown for a failed upload: the route's error or the thrown message,
      falling back to "Upload failed". */
  function FailureMessage(reply: UploadReply): string {
    match reply
    case Answered(_, error, _) => if Truthy(error) then error.value else UploadFailedMessage
    case Threw(isError, message) => if isError then message else UploadFailedMessage
  }

  /** `handleFileChange` for a selection of `count` files, with `reply` the outcome of the request. */
  function HandleFileChange(s: State, count: nat, reply: UploadReply): (c: Change)
    ensures c.state.maxFiles == s.maxFiles
    // an empty selection does nothing at all
    ensures count == 0 ==> c == Change(s, None, false)
    // the gate: too many files sets the limit message and leaves the list alone
    ensures c.requested <==> count > 0 && |s.images| + count <= s.maxFiles
    ensures count > 0 && !c.requested ==>
              c.state == s.(error := Some(LimitMessage(s.maxFiles))) && c.notified == None
    // every request ends with the spinner off
    ensures c.requested ==> !c.state.isUploading
    // success appends the returned URLs in order and reports the whole new list
    ensures c.requested && Succeeded(reply) ==>
              && c.state.images == s.images + reply.urls
              && c.state.error == None
              && c.notified == Some(c.state.images)
    // failure keeps the list and shows a message
    ensures c.requested && !Succeeded(reply) ==>
              && c.state.images == s.images
              && c.state.error == Some(FailureMessage(reply))
              && c.notified == None
  {
    if count == 0 then Change(s, None, false)
    else if |s.images| + count > s.maxFiles then
      Change(s.(error := Some(LimitMessage(s.maxFiles))), None, false)
    else if Succeeded(reply) then
      var images := s.images + reply.urls;
      Change(s.(images := images, isUploading := false, error := None), Some(images), true)
    else
      Change(s.(isUploading := false, error := Some(FailureMessage(reply))), None, true)
  }

  /** `images.filter((_, i) => i !== index)`, where `pos` is the index of `xs[0]`. */
  function Without(xs: seq<string>, index: int, pos: int): seq<string>
    decreases |xs|
  {
    if |xs| == 0 then []
    else (if pos == index then [] else [xs[0]]) + Without(xs[1..], index, pos + 1)
  }

  /** The filter drops exactly the element at `index` and nothing when it is out of range. */
  lemma {:induction false} WithoutIsSliceRemoval(xs: seq<string>, index: int, pos: int)
    ensures pos <= index < pos + |xs| ==> Without(xs, index, pos) == xs[..index - pos] + xs[index - pos + 1..]
    ensures !(pos <= index < pos + |xs|) ==> Without(xs, index, pos) == xs
    decreases |xs|
  {
    if |xs| > 0 {
      WithoutIsSliceRemoval(xs[1..], index, pos + 1);
      if pos == index {
        assert xs[..0] + xs[1..] == xs[1..];
      } else if pos < index < pos + |xs| {
        assert xs[..index - pos] == [xs[0]] + xs[1..][..index - pos - 1];
        assert xs[index - pos + 1..] == xs[1..][index - pos..];
      } else {
        assert [xs[0]] + xs[1..] == xs;
      }
    }
  }

  /** `removeImage(index)` */
  function RemoveImage(s: State, index: int): (c: Change)
    ensures 0 <= index < |s.images| ==> c.state.images == s.images[..index] + s.images[index + 1..]
    ensures !(0 <= index < |s.images|) ==> c.state.images == s.images
    ensures c.state == s.(images := c.state.images)
    ensures c.notified == Some(c.state.images) && !c.requested
  {
    WithoutIsSliceRemoval(s.images, index, 0);
    var images := Without(s.images, index, 0);
    Change(s.(images := images), Some(images), false)
  }

  /** The "Choose Photos" control is rendered while the list is below the limit. */
  predicate ShowsUploadControl(s: State) {
    |s.images| < s.maxFiles
  }

  /** The control is shown exactly when a one-file selection would pass the gate. */
  lemma ControlMatchesGate(s: State, reply: UploadReply)
    ensures ShowsUploadControl(s) <==> HandleFileChange(s, 1, reply).requested
  {
  }

  /** Within the limit and with one URL back per file, the list stays within the limit. */
  lemma SelectionKeepsBound(s: State, count: nat, reply: UploadReply)
    requires |s.images| <= s.maxFiles
    requires Succeeded(reply) ==> |reply.urls| == count
    ensures |HandleFileChange(s, count, reply).state.images| <= s.maxFiles
  {
  }

  /** An editor given no props starts empty with the upload control shown, and takes a
      first selection of five files but refuses six. */
  lemma DefaultEditorTakesFive(reply: UploadReply)
    ensures Initial(None, None).images == [] && ShowsUploadControl(Initial(None, None))
    ensures HandleFileChange(Initial(None, None), 5, reply).requested
    ensures !HandleFileChange(Initial(None, None), 6, reply).requested
  {
  }

  /** Existing images within the limit give a first state that meets the bound the
      selection and removal lemmas assume, so the bound holds from the first render on. */
  lemma InitialWithinBound(existing: Option<seq<string>>, maxFiles: Option<nat>, count: nat, reply: UploadReply)
    requires |existing.GetOr([])| <= maxFiles.GetOr(DefaultMaxFiles)
    requires Succeeded(reply) ==> |reply.urls| == count
    ensures var s := Initial(existing, maxFiles);
            && |s.images| <= s.maxFiles
            && |HandleFileChange(s, count, reply).state.images| <= maxFiles.GetOr(DefaultMaxFiles)
  {
  }

  /** Removal keeps the bound and, from a full list, brings the upload control back. */
  lemma RemovalKeepsBound(s: State, index: int)
    requires |s.images| <= s.maxFiles
    ensures |RemoveImage(s, index).state.images| <= s.maxFiles
    ensures 0 <= index < |s.images| ==> ShowsUploadControl(RemoveImage(s, index).state)
  {
  }

  /** How the component reads the batch route's JSON reply. */
  function ReadReply(r: Reply): UploadReply {
    Answered(200 <= r.status < 300,
             if r.body.ErrorBody? then Some(r.body.error) else None,
             if r.body.UrlsBody? then r.body.urls else [])
  }

  function AsEntries(files: seq<FileInfo>): (es: seq<FormEntry>)
    ensures |es| == |files|
    ensures forall i :: 0 <= i < |files| ==> es[i] == FileEntry(files[i])
  {
    seq(|files|, i requires 0 <= i < |files| => FileEntry(files[i]))
  }

  /** Against the real batch route the bound always holds, and a request either adds
      one URL per selected file or leaves the list as it was. */
  lemma RouteKeepsBound(s: State, files: seq<FileInfo>, stamp: nat -> nat, put: Put)
    requires |s.images| <= s.maxFiles
    ensures var c := HandleFileChange(s, |files|, ReadReply(UploadMultiple.Post(AsEntries(files), stamp, put)));
            && |c.state.images| <= s.maxFiles
            && (c.state.images == s.images || c.state.images[..|s.images|] == s.images)
            && (c.state.images != s.images ==> |c.state.images| == |s.images| + |files|)
  {
  }
}

=== FILE: item_query.dfy ===
/**
 * `getItems`: the optional filter record becomes an ordered list of query
 * parameters, serialised after `/items?`.
 */
module ItemQuery {
  import opened Wrappers
  import opened Text

  /** The select value that means "no restriction" for category and size. */
  const AllSentinel: string := "all"
  const ItemsPathPrefix: string := "/items?"

  /** The parameter names, in the order they are appended. */
  const FilterKeys: seq<string> := ["category", "size", "condition", "search", "status"]

  datatype ItemFilters = ItemFilters(category: Option<string>, size: Option<string>,
                                     condition: Option<string>, search: Option<string>,
                                     status: Option<string>)

  type Param = (string, string)

  const NoFilters: ItemFilters := ItemFilters(None, None, None, None, None)

  /** The filter field a parameter name stands for. */
  function FieldOf(f: ItemFilters, key: string): Option<string> {
    if key == FilterKeys[0] then f.category
    else if key == FilterKeys[1] then f.size
    else if key == FilterKeys[2] then f.condition
    else if key == FilterKeys[3] then f.search
    else if key == FilterKeys[4] then f.status
    else None
  }

  /** Position of a parameter name in the append order (5 for any other name). */
  function Rank(key: string): nat {
    if key == FilterKeys[0] then 0
    else if key == FilterKeys[1] then 1
    else if key == FilterKeys[2] then 2
    else if key == FilterKeys[3] then 3
    else if key == FilterKeys[4] then 4
    else 5
  }

  /** The value sent for `key`: the first parameter with that name, if any. */
  function Lookup(ps: seq<Param>, key: string): (v: Option<string>)
    ensures v.Some? ==> exists i :: 0 <= i < |ps| && ps[i] == (key, v.value)
    ensures v.None? ==> forall i :: 0 <= i < |ps| ==> ps[i].0 != key
  {
    if |ps| == 0 then None
    else if ps[0].0 == key then Some(ps[0].1)
    else Lookup(ps[1..], key)
  }

  lemma {:induction false} LookupConcat(a: seq<Param>, b: seq<Param>, key: string)
    ensures Lookup(a + b, key) == if Lookup(a, key).Some? then Lookup(a, key) else Lookup(b, key)
    decreases |a|
  {
    if |a| > 0 {
      assert (a + b)[1..] == a[1..] + b;
      LookupConcat(a[1..], b, key);
    } else {
      assert a + b == b;
    }
  }

  /** One `if (...) params.append(key, value)`; `skipAll` adds the `!== 'all'` test. */
  function Append(key: string, v: Option<string>, skipAll: bool): seq<Param> {
    if Truthy(v) && !(skipAll && v.value == AllSentinel) then [(key, v.value)] else []
  }

  /** The parameters `getItems` appends, in order; `None` is a call without filters.
      Every value is its filter's own value, and the names appear at most once each,
      in the fixed order category, size, condition, search, status. */
  function QueryParams(filters: Option<ItemFilters>): (ps: seq<Param>)
    ensures forall i :: 0 <= i < |ps| ==> Rank(ps[i].0) < 5 && FieldOf(filters.GetOr(NoFilters), ps[i].0) == Some(ps[i].1)
    ensures forall i, j :: 0 <= i < j < |ps| ==> Rank(ps[i].0) < Rank(ps[j].0)
  {
    var f := filters.GetOr(NoFilters);
    Append(FilterKeys[0], f.category, true) + Append(FilterKeys[1], f.size, true)
      + Append(FilterKeys[2], f.condition, false) + Append(FilterKeys[3], f.search, false)
      + Append(FilterKeys[4], f.status, false)
  }

  lemma LookupAppend(key: string, v: Option<string>, skipAll: bool, k: string)
    ensures Lookup(Append(key, v, skipAll), k)
              == if k == key && Truthy(v) && !(skipAll && v.value == AllSentinel) then v else None
  {
  }

  /** The value sent for one name is the first non-empty contribution among the five appends. */
  lemma LookupQueryParams(filters: Option<ItemFilters>, key: string)
    ensures var f := filters.GetOr(NoFilters);
            Lookup(QueryParams(filters), key)
              == Lookup(Append(FilterKeys[0], f.category, true), key)
                   .OrElse(Lookup(Append(FilterKeys[1], f.size, true), key))
                   .OrElse(Lookup(Append(FilterKeys[2], f.condition, false), key))
                   .OrElse(Lookup(Append(FilterKeys[3], f.search, false), key))
                   .OrElse(Lookup(Append(FilterKeys[4], f.status, false), key))
  {
    var f := filters.GetOr(NoFilters);
    var a0 := Append(FilterKeys[0], f.category, true);
    var a1 := Append(FilterKeys[1], f.size, true);
    var a2 := Append(FilterKeys[2], f.condition, false);
    var a3 := Append(FilterKeys[3], f.search, false);
    var a4 := Append(FilterKeys[4], f.status, false);
    LookupConcat(a0, a1, key);
    LookupConcat(a0 + a1, a2, key);
    LookupConcat(a0 + a1 + a2, a3, key);
    LookupConcat(a0 + a1 + a2 + a3, a4, key);
  }

  /** Which filters are sent: category and size only when set, non-empty and not `'all'`;
      condition, search and status whenever non-empty, so a condition of `'all'` is sent. */
  lemma QueryParamsSent(filters: Option<ItemFilters>)
    ensures var f := filters.GetOr(NoFilters);
            var ps := QueryParams(filters);
            && Lookup(ps, "category") == (if Truthy(f.category) && f.category.value != AllSentinel then f.category else None)
            && Lookup(ps, "size") == (if Truthy(f.size) && f.size.value != AllSentinel then f.size else None)
            && Lookup(ps, "condition") == (if Truthy(f.condition) then f.condition else None)
            && Lookup(ps, "search") == (if Truthy(f.search) then f.search else None)
            && Lookup(ps, "status") == (if Truthy(f.status) then f.status else None)
  {
    SentFor(filters, "category");
    SentFor(filters, "size");
    SentFor(filters, "condition");
    SentFor(filters, "search");
    SentFor(filters, "status");
  }

  lemma SentFor(filters: Option<ItemFilters>, key: string)
    requires key in FilterKeys
    ensures var f := filters.GetOr(NoFilters);
            var v := FieldOf(f, key);
            Lookup(QueryParams(filters), key)
              == if Truthy(v) && !(Rank(key) < 2 && v.value == AllSentinel) then v else None
  {
    var f := filters.GetOr(NoFilters);
    LookupQueryParams(filters, key);
    LookupAppend(FilterKeys[0], f.category, true, key);
    LookupAppend(FilterKeys[1], f.size, true, key);
    LookupAppend(FilterKeys[2], f.condition, false, key);
    LookupAppend(FilterKeys[3], f.search, false, key);
    LookupAppend(FilterKeys[4], f.status, false, key);
  }

  /** `name=value`, each side passed through the form-urlencoded byte serializer `enc`. */
  function EncodePair(p: Param, enc: string -> string): string {
    enc(p.0) + "=" + enc(p.1)
  }

  /** `URLSearchParams.toString()`: the encoded pairs joined by `&`. */
  function Serialize(ps: seq<Param>, enc: string -> string): (s: string)
    ensures s == "" <==> ps == []
    decreases |ps|
  {
    if |ps| == 0 then ""
    else if |ps| == 1 then EncodePair(ps[0], enc)
    else EncodePair(ps[0], enc) + "&" + Serialize(ps[1..], enc)
  }

  /** The request path `getItems` asks the client for. */
  function ItemsPath(filters: Option<ItemFilters>, enc: string -> string): string {
    ItemsPathPrefix + Serialize(QueryParams(filters), enc)
  }

  /** The form-urlencoded parser: split on `&`, then each piece at its first `=`,
      decoding both sides with `dec`. */
  function Parse(query: string, dec: string -> string): seq<Param> {
    if query == "" then [] else ParsePieces(Split(query, '&'), dec)
  }

  function ParsePieces(pieces: seq<string>, dec: string -> string): (ps: seq<Param>)
    ensures |ps| == |pieces|
  {
    if |pieces| == 0 then [] else [ParsePiece(pieces[0], dec)] + ParsePieces(pieces[1..], dec)
  }

  function ParsePiece(piece: string, dec: string -> string): Param {
    var i := IndexOf(piece, '=');
    (dec(piece[..i]), dec(if i < |piece| then piece[i + 1..] else ""))
  }

  /** The encoder never emits the two separators the parser splits on. */
  ghost predicate SeparatorFree(enc: string -> string) {
    forall x :: '&' !in enc(x) && '=' !in enc(x)
  }

  lemma ParsePieceOfPair(p: Param, enc: string -> string, dec: string -> string)
    requires SeparatorFree(enc)
    requires forall x :: dec(enc(x)) == x
    ensures ParsePiece(EncodePair(p, enc), dec) == p
  {
    var piece := EncodePair(p, enc);
    assert '=' !in enc(p.0);
    IndexOfIs(piece, '=', |enc(p.0)|);
    assert piece[..|enc(p.0)|] == enc(p.0);
    assert piece[|enc(p.0)| + 1..] == enc(p.1);
  }

  lemma {:induction false} SplitSerialized(ps: seq<Param>, enc: string -> string)
    requires |ps| >= 1
    requires SeparatorFree(enc)
    ensures Split(Serialize(ps, enc), '&') == seq(|ps|, i requires 0 <= i < |ps| => EncodePair(ps[i], enc))
    decreases |ps|
  {
    var head := EncodePair(ps[0], enc);
    assert '&' !in enc(ps[0].0) && '&' !in enc(ps[0].1);
    assert forall j :: 0 <= j < |head| ==> head[j] != '&' by {
      assert head == enc(ps[0].0) + "=" + enc(ps[0].1);
    }
    if |ps| == 1 {
      SplitWhole(head, '&');
    } else {
      SplitSerialized(ps[1..], enc);
      assert Serialize(ps, enc) == head + ['&'] + Serialize(ps[1..], enc);
      SplitAfter(head, '&', Serialize(ps[1..], enc));
    }
  }

  lemma {:induction false} ParseEncodedPieces(ps: seq<Param>, enc: string -> string, dec: string -> string)
    requires SeparatorFree(enc)
    requires forall x :: dec(enc(x)) == x
    ensures ParsePieces(seq(|ps|, i requires 0 <= i < |ps| => EncodePair(ps[i], enc)), dec) == ps
    decreases |ps|
  {
    if |ps| > 0 {
      var pieces := seq(|ps|, i requires 0 <= i < |ps| => EncodePair(ps[i], enc));
      ParsePieceOfPair(ps[0], enc, dec);
      ParseEncodedPieces(ps[1..], enc, dec);
      assert pieces[1..] == seq(|ps[1..]|, i requires 0 <= i < |ps[1..]| => EncodePair(ps[1..][i], enc));
    }
  }

  /** Serialising then parsing gives back the parameter list, given an encoder the
      decoder undoes and that escapes both separators. */
  lemma SerializeRoundTrip(ps: seq<Param>, enc: string -> string, dec: string -> string)
    requires SeparatorFree(enc)
    requires forall x :: dec(enc(x)) == x
    ensures Parse(Serialize(ps, enc), dec) == ps
  {
    if |ps| > 0 {
      SplitSerialized(ps, enc);
      ParseEncodedPieces(ps, enc, dec);
    }
  }

  /** What the backend reads from the query string is exactly the filters `getItems` sends. */
  lemma ServerSeesFilters(filters: Option<ItemFilters>, enc: string -> string, dec: string -> string)
    requires SeparatorFree(enc)
    requires forall x :: dec(enc(x)) == x
    ensures var path := ItemsPath(filters, enc);
            && StartsWith(path, ItemsPathPrefix)
            && Parse(path[|ItemsPathPrefix|..], dec) == QueryParams(filters)
  {
    var path := ItemsPath(filters, enc);
    assert path[|ItemsPathPrefix|..] == Serialize(QueryParams(filters), enc);
    SerializeRoundTrip(QueryParams(filters), enc, dec);
  }

  /** Filters that are all absent, empty or (for category and size) `'all'` ask for `/items?`. */
  lemma UnfilteredPath(filters: Option<ItemFilters>, enc: string -> string)
    requires filters.Some? ==> !Truthy(filters.value.condition) && !Truthy(filters.value.search) && !Truthy(filters.value.status)
    requires filters.Some? ==> !Truthy(filters.value.category) || filters.value.category.value == AllSentinel
    requires filters.Some? ==> !Truthy(filters.value.size) || filters.value.size.value == AllSentinel
    ensures ItemsPath(filters, enc) == ItemsPathPrefix
  {
  }

  /** Unlike category and size, condition has no sentinel: `'all'` is sent as a real value. */
  lemma ConditionAllIsSent()
    ensures QueryParams(Some(NoFilters.(condition := Some(AllSentinel)))) == [("condition", AllSentinel)]
    ensures QueryParams(Some(NoFilters.(category := Some(AllSentinel)))) == []
  {
  }
}

=== FILE: storage.dfy ===
/** The browser's `localStorage`, reduced to the two keys the session uses. */
module Storage {
  import opened Wrappers
  import opened Text

  /** Durable key-value storage: `getItem`/`setItem`/`removeItem` over string keys. */
  type Store = map<string, string>

  const AccessTokenKey: string := "accessToken"
  const RefreshTokenKey: string := "refreshToken"

  /** `localStorage.getItem(key)`: `null` when the key was never set. */
  function GetItem(st: Store, key: string): (r: Option<string>)
    ensures r.Some? <==> key in st
    ensures r.Some? ==> r.value == st[key]
  {
    if key in st then Some(st[key]) else None
  }

  /** A usable token is stored under `key`. */
  predicate HasToken(st: Store, key: string) {
    Truthy(GetItem(st, key))
  }

  /** `removeItem('accessToken'); removeItem('refreshToken')` */
  function ClearTokens(st: Store): (r: Store)
    ensures AccessTokenKey !in r && RefreshTokenKey !in r
    ensures forall k :: k in st && k != AccessTokenKey && k != RefreshTokenKey ==> k in r && r[k] == st[k]
    ensures forall k :: k in r ==> k in st
  {
    st - {AccessTokenKey, RefreshTokenKey}
  }

  /** `setItem('accessToken', a); setItem('refreshToken', t)` */
  function StoreTokens(st: Store, access: string, refresh: string): (r: Store)
    ensures AccessTokenKey in r && r[AccessTokenKey] == access
    ensures RefreshTokenKey in r && r[RefreshTokenKey] == refresh
    ensures forall k :: k in st && k != AccessTokenKey && k != RefreshTokenKey ==> k in r && r[k] == st[k]
    ensures r.Keys == st.Keys + {AccessTokenKey, RefreshTokenKey}
  {
    st[AccessTokenKey := access][RefreshTokenKey := refresh]
  }
}

=== FILE: text.dfy ===
/** String facts the model needs: prefixes, substrings and decimal rendering of numbers. */
module Text {
  import opened Wrappers

  /** JavaScript truthiness of an optional string: present and not empty. */
  predicate Truthy(v: Option<string>) {
    v.Some? && v.value != ""
  }

  /** `s.startsWith(p)` */
  predicate StartsWith(s: string, p: string) {
    |p| <= |s| && s[..|p|] == p
  }

  /** `sub` occurs in `s` at position `i`. */
  predicate OccursAt(s: string, sub: string, i: int) {
    0 <= i && i + |sub| <= |s| && s[i..i + |sub|] == sub
  }

  /** Reference meaning of `s.includes(sub)`: some position holds an occurrence. */
  ghost predicate ContainsAt(s: string, sub: string) {
    exists i :: OccursAt(s, sub, i)
  }

  /** `s.includes(sub)`, computed by scanning left to right. */
  predicate Includes(s: string, sub: string)
    decreases |s|
  {
    if |sub| > |s| then false
    else s[..|sub|] == sub || Includes(s[1..], sub)
  }

  /** Dropping the first character moves every occurrence one position left. */
  lemma OccursShift(s: string, sub: string, i: int)
    requires |s| >= 1 && i >= 0
    ensures OccursAt(s[1..], sub, i) <==> OccursAt(s, sub, i + 1)
  {
    if i + |sub| <= |s| - 1 {
      assert s[1..][i..i + |sub|] == s[i + 1..i + 1 + |sub|];
    }
  }

  /** The scan agrees with the positional definition, in both directions. */
  lemma {:induction false} IncludesMeansOccurs(s: string, sub: string)
    ensures Includes(s, sub) <==> ContainsAt(s, sub)
    decreases |s|
  {
    if |sub| <= |s| && s[..|sub|] == sub {
      assert OccursAt(s, sub, 0);
    } else if |sub| <= |s| {
      IncludesMeansOccurs(s[1..], sub);
      if Includes(s[1..], sub) {
        var i :| OccursAt(s[1..], sub, i);
        OccursShift(s, sub, i);
      }
      if ContainsAt(s, sub) {
        var i :| OccursAt(s, sub, i);
        assert s[0..|sub|] == s[..|sub|];
        OccursShift(s, sub, i - 1);
      }
    }
  }

  predicate IsDigit(c: char) {
    '0' <= c <= '9'
  }

  function DigitChar(d: nat): (c: char)
    requires d < 10
    ensures IsDigit(c)
  {
    ['0', '1', '2', '3', '4', '5', '6', '7', '8', '9'][d]
  }

  function DigitValue(c: char): nat
    requires IsDigit(c)
  {
    (c as int - '0' as int) as nat
  }

  /** The decimal text JavaScript produces for a non-negative integer below 10^21 (`${n}`). */
  function NatToString(n: nat): (s: string)
    ensures |s| >= 1
    ensures forall i :: 0 <= i < |s| ==> IsDigit(s[i])
    ensures |s| > 1 ==> s[0] != '0'
    decreases n
  {
    if n < 10 then [DigitChar(n)] else NatToString(n / 10) + [DigitChar(n % 10)]
  }

  /** Reads back a string of decimal digits. */
  function ParseNat(s: string): nat
    requires forall i :: 0 <= i < |s| ==> IsDigit(s[i])
    decreases |s|
  {
    if |s| == 0 then 0 else 10 * ParseNat(s[..|s| - 1]) + DigitValue(s[|s| - 1])
  }

  /** Rendering then reading a number gives the number back. */
  lemma {:induction false} ParseNatToString(n: nat)
    ensures ParseNat(NatToString(n)) == n
    decreases n
  {
    var s := NatToString(n);
    if n < 10 {
      assert DigitValue(DigitChar(n)) == n;
    } else {
      ParseNatToString(n / 10);
      assert s[..|s| - 1] == NatToString(n / 10);
      assert DigitValue(DigitChar(n % 10)) == n % 10;
    }
  }

  /** Position of the first `c` in `s`, or `|s|` when there is none. */
  function IndexOf(s: string, c: char): (i: nat)
    ensures i <= |s|
    ensures i < |s| ==> s[i] == c
    ensures forall j :: 0 <= j < i ==> s[j] != c
  {
    if |s| == 0 then 0 else if s[0] == c then 0 else 1 + IndexOf(s[1..], c)
  }

  /** The first occurrence found by `IndexOf` is the only candidate. */
  lemma IndexOfIs(s: string, c: char, i: nat)
    requires i <= |s|
    requires i < |s| ==> s[i] == c
    requires forall j :: 0 <= j < i ==> s[j] != c
    ensures IndexOf(s, c) == i
  {
  }

  /** `s.split(c)`: the pieces between separators, always at least one. */
  function Split(s: string, c: char): (parts: seq<string>)
    ensures |parts| >= 1
    decreases |s|
  {
    var i := IndexOf(s, c);
    if i == |s| then [s] else [s[..i]] + Split(s[i + 1..], c)
  }

  /** Splitting at a separator after a separator-free piece peels that piece off. */
  lemma SplitAfter(a: string, c: char, b: string)
    requires forall j :: 0 <= j < |a| ==> a[j] != c
    ensures Split(a + [c] + b, c) == [a] + Split(b, c)
  {
    var s := a + [c] + b;
    IndexOfIs(s, c, |a|);
    assert s[..|a|] == a;
    assert s[|a| + 1..] == b;
  }

  /** A separator-free string is a single piece. */
  lemma SplitWhole(a: string, c: char)
    requires forall j :: 0 <= j < |a| ==> a[j] != c
    ensures Split(a, c) == [a]
  {
  }
}

=== FILE: upload_avatar.dfy ===
/** The avatar upload route: one `file` entry, checked for presence, an exact MIME
    allow-list and size, then stored under the avatars prefix. */
module UploadAvatar {
  import opened Wrappers
  import Text
  import opened BlobUpload
  import UploadMultiple

  const PathPrefix: string := "clothshare/avatars/"
  const ValidTypes: seq<string> := ["image/jpeg", "image/png", "image/gif", "image/webp"]

  datatype Problem = NoFile | InvalidType | TooLarge

  function MessageOf(p: Problem): string {
    match p
    case NoFile => "No file provided"
    case InvalidType => "Invalid file type. Only JPG, PNG, GIF, and WebP are allowed."
    case TooLarge => "File size must be less than 5MB"
  }

  /** The checks in order. `field` is `formData.get('file')`: absent, a file, or a text
      value; an empty text value is falsy, a non-empty one has no `type`. */
  function Validate(field: Option<FormEntry>): (r: Option<Problem>)
    ensures r == Some(NoFile) <==> field.None? || field == Some(TextEntry(""))
    ensures r.None? <==>
              field.Some? && field.value.FileEntry? && field.value.file.mimeType in ValidTypes
              && field.value.file.size <= MaxFileBytes
    // the type check comes first: a wrongly typed file is refused for its type whatever its size
    ensures field.Some? && field.value.FileEntry? && field.value.file.mimeType !in ValidTypes ==> r == Some(InvalidType)
    ensures r == Some(TooLarge) <==>
              field.Some? && field.value.FileEntry? && field.value.file.mimeType in ValidTypes && field.value.file.size > MaxFileBytes
  {
    match field
    case None => Some(NoFile)
    case Some(TextEntry(t)) => if t == "" then Some(NoFile) else Some(InvalidType)
    case Some(FileEntry(f)) =>
      if f.mimeType !in ValidTypes then Some(InvalidType)
      else if f.size > MaxFileBytes then Some(TooLarge)
      else None
  }

  /** `POST /api/upload-avatar`; `stamp` is the `Date.now()` read for the path. */
  function Post(field: Option<FormEntry>, stamp: nat, put: Put): (reply: Reply)
    ensures Validate(field).Some? ==> reply == ErrorReply(StatusBadRequest, MessageOf(Validate(field).value))
    ensures reply.status == StatusOk <==>
              Validate(field).None? && put(BlobPath(PathPrefix, stamp, field.value.file.name), field.value.file).Some?
    ensures reply.status == StatusOk ==>
              reply.body.UrlBody? && Some(reply.body.url) == put(BlobPath(PathPrefix, stamp, field.value.file.name), field.value.file)
    ensures Validate(field).None? && reply.status != StatusOk ==> reply == ErrorReply(StatusServerError, UploadFailedMessage)
  {
    match Validate(field)
    case Some(p) => ErrorReply(StatusBadRequest, MessageOf(p))
    case None =>
      match put(BlobPath(PathPrefix, stamp, field.value.file.name), field.value.file)
      case None => ErrorReply(StatusServerError, UploadFailedMessage)
      case Some(url) => Reply(StatusOk, UrlBody(url))
  }

  /** An avatar path is never a path the batch route writes: after `clothshare/` the
      batch path has its timestamp digits (or the `-` after them), the avatar path `avatars/`. */
  lemma AvatarPathsApart(s1: nat, n1: string, s2: nat, n2: string)
    ensures BlobPath(UploadMultiple.PathPrefix, s1, n1) != BlobPath(PathPrefix, s2, n2)
  {
    var batch := BlobPath(UploadMultiple.PathPrefix, s1, n1);
    var avatar := BlobPath(PathPrefix, s2, n2);
    var k := |UploadMultiple.PathPrefix|;
    assert avatar[k] == PathPrefix[k] == 'a';
    var digits := batch[k..|batch| - |n1| - 1];
    if |digits| > 0 {
      assert batch[k] == digits[0];
    }
  }

  /** What the avatar route answers: 400 exactly for a refused field, 500 exactly for an
      accepted file the store fails on, and otherwise 200 with the store's URL for a path
      under the avatars prefix that no batch upload can occupy. */
  lemma AvatarPostOutcome(field: Option<FormEntry>, stamp: nat, put: Put)
    ensures var reply := Post(field, stamp, put);
            && (reply.status == StatusBadRequest <==> Validate(field).Some?)
            && (reply.status == StatusServerError <==>
                  Validate(field).None? && put(BlobPath(PathPrefix, stamp, field.value.file.name), field.value.file).None?)
    ensures var reply := Post(field, stamp, put);
            reply.status == StatusOk ==>
              var f := field.value.file;
              var path := BlobPath(PathPrefix, stamp, f.name);
              && Text.StartsWith(path, PathPrefix)
              && Some(reply.body.url) == put(path, f)
              && forall s: nat, n: string :: BlobPath(UploadMultiple.PathPrefix, s, n) != path
  {
    var reply := Post(field, stamp, put);
    if reply.status == StatusOk {
      var path := BlobPath(PathPrefix, stamp, field.value.file.name);
      forall s: nat, n: string
        ensures BlobPath(UploadMultiple.PathPrefix, s, n) != path
      {
        AvatarPathsApart(s, n, stamp, field.value.file.name);
      }
    }
  }

  /** Every avatar the route accepts would pass the batch route's per-file check too. */
  lemma AvatarAcceptedByBatchCheck(e: FormEntry)
    requires Validate(Some(e)).None?
    ensures UploadMultiple.EntryProblem(e).None?
  {
  }

  /** The converse fails: an SVG image passes the batch check but not the avatar allow-list. */
  lemma SvgOnlyPassesBatchCheck(name: string)
    ensures var e := FileEntry(FileInfo(name, "image/svg+xml", 1));
            UploadMultiple.EntryProblem(e).None? && Validate(Some(e)) == Some(InvalidType)
  {
  }
}

=== FILE: upload_multiple.dfy ===
/**
 * The batch upload route: the `files` entries are checked (count, then each file's
 * type and size in order) and, if all pass, every file is handed to the store at
 * once. The reply is all-or-nothing: one public URL per file, or a 500 if any store
 * call fails.
 */
module UploadMultiple {
  import opened Wrappers
  import opened Text
  import opened BlobUpload

  const MaxFiles: nat := 5
  const PathPrefix: string := "clothshare/"
  const ImageTypePrefix: string := "image/"

  /** Why a batch is refused. `Crashed` is a text entry whose missing `type` makes the
      type check throw, which the route's catch turns into a 500. */
  datatype Problem = NoFiles | TooMany | NotImage | TooLarge | Crashed

  function StatusOf(p: Problem): int {
    if p == Crashed then StatusServerError else StatusBadRequest
  }

  function MessageOf(p: Problem): string {
    match p
    case NoFiles => "No files provided"
    case TooMany => "Maximum 5 files allowed"
    case NotImage => "Only image files are allowed"
    case TooLarge => "Each file must be less than 5MB"
    case Crashed => UploadFailedMessage
  }

  /** One iteration of the validation loop: type first, then size. */
  function EntryProblem(e: FormEntry): Option<Problem> {
    match e
    case TextEntry(_) => Some(Crashed)
    case FileEntry(f) =>
      if !StartsWith(f.mimeType, ImageTypePrefix) then Some(NotImage)
      else if f.size > MaxFileBytes then Some(TooLarge)
      else None
  }

  /** The validation loop: the first entry with a problem decides the error. */
  function FirstEntryProblem(es: seq<FormEntry>): (r: Option<Problem>)
    ensures r.None? <==> forall i :: 0 <= i < |es| ==> EntryProblem(es[i]).None?
    ensures r.Some? ==> exists k :: 0 <= k < |es| && EntryProblem(es[k]) == r
                                    && forall i :: 0 <= i < k ==> EntryProblem(es[i]).None?
  {
    if |es| == 0 then None
    else if EntryProblem(es[0]).Some? then EntryProblem(es[0])
    else
      var r := FirstEntryProblem(es[1..]);
      assert forall i :: 1 <= i < |es| ==> es[i] == es[1..][i - 1];
      if r.Some? then
        var k :| 0 <= k < |es[1..]| && EntryProblem(es[1..][k]) == r
                 && forall i :: 0 <= i < k ==> EntryProblem(es[1..][i]).None?;
        assert EntryProblem(es[k + 1]) == r;
        r
      else r
  }

  /** All checks, in the route's order: empty batch, too many, then the per-file loop. */
  function Validate(es: seq<FormEntry>): (r: Option<Problem>)
    ensures r == Some(NoFiles) <==> |es| == 0
    ensures r == Some(TooMany) <==> |es| > MaxFiles
    ensures 1 <= |es| <= MaxFiles ==> r == FirstEntryProblem(es)
    ensures r.None? ==> 1 <= |es| <= MaxFiles && forall i :: 0 <= i < |es| ==> es[i].FileEntry?
  {
    if |es| == 0 then Some(NoFiles)
    else if |es| > MaxFiles then Some(TooMany)
    else
      var r := FirstEntryProblem(es);
      assert r.Some? ==> r != Some(NoFiles) && r != Some(TooMany);
      r
  }

  /** The path file `i` is stored under, with `stamp(i)` the `Date.now()` read for it. */
  function PathOf(es: seq<FormEntry>, stamp: nat -> nat, i: nat): string
    requires i < |es| && es[i].FileEntry?
  {
    BlobPath(PathPrefix, stamp(i), es[i].file.name)
  }

  predicate AllFiles(es: seq<FormEntry>) {
    forall i :: 0 <= i < |es| ==> es[i].FileEntry?
  }

  /** The URLs for files `from` onwards. All `put` calls are issued together; the result
      is `None` when any of them fails (the `Promise.all` rejection), whatever the others did. */
  function UploadFrom(es: seq<FormEntry>, stamp: nat -> nat, put: Put, from: nat): (r: Option<seq<string>>)
    requires from <= |es| && AllFiles(es)
    ensures r.Some? <==> forall i :: from <= i < |es| ==> put(PathOf(es, stamp, i), es[i].file).Some?
    ensures r.Some? ==> |r.value| == |es| - from
    ensures r.Some? ==> forall i :: from <= i < |es| ==> Some(r.value[i - from]) == put(PathOf(es, stamp, i), es[i].file)
    decreases |es| - from
  {
    if from == |es| then Some([])
    else
      match put(PathOf(es, stamp, from), es[from].file)
      case None => None
      case Some(url) =>
        match UploadFrom(es, stamp, put, from + 1)
        case None => None
        case Some(rest) => Some([url] + rest)
  }

  /** `POST /api/upload/multiple` */
  function Post(es: seq<FormEntry>, stamp: nat -> nat, put: Put): (reply: Reply)
    ensures reply.status in {StatusOk, StatusBadRequest, StatusServerError}
    // refusals carry the first failing check's status and message
    ensures Validate(es).Some? ==>
              reply == ErrorReply(StatusOf(Validate(es).value), MessageOf(Validate(es).value))
    // a store failure after validation is a 500
    ensures Validate(es).None? && reply.status != StatusOk ==> reply == ErrorReply(StatusServerError, UploadFailedMessage)
    // success: one URL per file, in input order, each the store's answer for that file's path
    ensures reply.status == StatusOk <==>
              Validate(es).None? && forall i :: 0 <= i < |es| ==> put(PathOf(es, stamp, i), es[i].file).Some?
    ensures reply.status == StatusOk ==>
              && 1 <= |es| <= MaxFiles
              && reply.body.UrlsBody?
              && |reply.body.urls| == |es|
              && forall i :: 0 <= i < |es| ==> Some(reply.body.urls[i]) == put(PathOf(es, stamp, i), es[i].file)
  {
    match Validate(es)
    case Some(p) => ErrorReply(StatusOf(p), MessageOf(p))
    case None =>
      match UploadFrom(es, stamp, put, 0)
      case None => ErrorReply(StatusServerError, UploadFailedMessage)
      case Some(urls) => Reply(StatusOk, UrlsBody(urls))
  }

  /** Exactly five files pass the count check; a sixth is refused before any file is looked at. */
  lemma CountBoundary(es: seq<FormEntry>, extra: FormEntry)
    requires |es| == MaxFiles
    ensures Validate(es) != Some(TooMany)
    ensures Validate(es + [extra]) == Some(TooMany)
  {
  }

  /** Type is checked before size, and the earliest bad file wins over any later one. */
  lemma FirstBadFileDecides(es: seq<FormEntry>, k: nat)
    requires 1 <= |es| <= MaxFiles && k < |es|
    requires forall i :: 0 <= i < k ==> EntryProblem(es[i]).None?
    requires es[k].FileEntry? && !StartsWith(es[k].file.mimeType, ImageTypePrefix)
    ensures Validate(es) == Some(NotImage)
  {
  }

  /** A file of exactly 5 MiB passes the size check; one byte more does not. */
  lemma SizeBoundary(name: string, mimeType: string)
    requires StartsWith(mimeType, ImageTypePrefix)
    ensures EntryProblem(FileEntry(FileInfo(name, mimeType, MaxFileBytes))).None?
    ensures EntryProblem(FileEntry(FileInfo(name, mimeType, MaxFileBytes + 1))) == Some(TooLarge)
  {
  }
}

=== FILE: wrappers.dfy ===
/** Failure-carrying wrappers shared by every module of the model. */
module Wrappers {

  /** A value that may be absent: JavaScript's `undefined`/`null` next to a present value. */
  datatype Option<+T> = None | Some(value: T) {
    function GetOr(default: T): T {
      match this
      case Some(v) => v
      case None => default
    }

    /** This value when present, otherwise `other` (JavaScript's `a ?? b`). */
    function OrElse(other: Option<T>): Option<T> {
      if Some? then this else other
    }
  }

  /** The outcome of a call that either yields a value or throws. */
  datatype Result<+R, +E> = Success(value: R) | Failure(error: E)
}
